=== FILE: README.md ===
# Transaction risk scoring — a Dafny model

This project models the decision logic of an HTTP-triggered fraud-scoring
function (`azure_function_example.py`):

- **Risk scoring** (`calculate_risk_metrics`). Five metrics are derived from a transaction amount and an account's historical snapshot:
  - amount deviation;
  - amount ratio;
  - frequency score;
  - days since the last transaction;
  - account maturity.

  Five weighted components are summed, scaled by 100 and clamped to [0, 100]. The score is then mapped to `BAJO` / `MEDIO` / `ALTO`, each with a fixed pair of recommendations.
- **Account risk profile** (`calculate_account_risk_profile`): a priority-ordered volume tier (`ALTO_VOLUMEN`, `BAJO_VOLUMEN`, `VOLUMEN_MEDIO`), an optional age suffix (`_NUEVA` +0.2, `_ESTABLECIDA` −0.1) and a capped stability score.
- **Anomaly indicators** (`detect_anomaly_indicators`): three independent rules add their tags in a fixed order. When no rule fires, the result is the single tag `COMPORTAMIENTO_NORMAL`.
- **Request gate of the transaction endpoint** (`process_transaction_data`):
  - a falsy body gives a 400 "no data" error;
  - otherwise the required fields absent from the body are listed in `required_fields` order, and a non-empty list gives a 400;
  - only a body that passes both gates is scored.

  Every exception the handler raises on the way becomes its catch-all 500.

Modules, one file each:

| file | module | contents |
|---|---|---|
| `wrappers.dfy` | `Wrappers` | `Option` |
| `ranked.dfy` | `Ranked` | lists in strictly increasing rank order; such a list is determined by its elements |
| `history.dfy` | `History` | the historical snapshot record |
| `risk.dfy` | `RiskMetrics` | metrics, composite score, tiers, recommendations |
| `profile.dfy` | `RiskProfile` | volume/age tiers, profile name and its parser, risk factor, stability |
| `anomalies.dfy` | `Anomalies` | the three anomaly rules and their tag list |
| `text.dfy` | `Text` | occurrence of one text in another, as Python's `in` on strings |
| `json.dfy` | `Json` | parsed request bodies with Python truthiness, `in` and `float` |
| `request.dfy` | `TransactionRequest` | required fields, missing-field list, extraction, the endpoint's response |

Inputs that the source reads from its environment are parameters of the model:
- the historical snapshot, which the source draws from a random stand-in provider;
- the whole number of days since the last transaction, which the source computes from the clock and the snapshot's date text;
- the parsed request body, which is `None` when parsing raised;
- the string-to-number part of Python's `float`.

Arithmetic is on exact reals.

Behaviour the model takes from the code, which a reader might expect otherwise:
- Tier names, profile names, tags and messages are the Spanish strings of the code.
- Anomaly tags are an ordered list, not a set.
- `req.get_json()` at line 25 is inside the handler's `try`, so an absent or unparseable body raises and gets the 500. Only a parsed body that Python treats as false gets the 400: `null`, `{}`, `[]`, `""`, `0` or `false`.
- The code does not require the body to be an object. For a list body, `field in body` tests list elements, and for a string body it tests substrings. So such a body can pass the field check, and then fails with a 500 when it is indexed by field name. A `true` or non-zero number body raises a 500 at the first membership test.

## Model

| member | source | states |
|---|---|---|
| `RiskMetrics.AmountDeviation` | azure_function_example.py:122 | the deviation is 0 when the standard deviation is not positive (no division by zero); otherwise deviation × std equals \|amount − avg\|; it is never negative |
| `RiskMetrics.AmountRatio` | azure_function_example.py:123 | the ratio is exactly 1 when the average is not positive; otherwise ratio × avg equals the amount, and the ratio exceeds 1 exactly when the amount exceeds the average |
| `RiskMetrics.FrequencyScore` | azure_function_example.py:124 | the frequency score never exceeds 10; it equals count/30 up to 300 transactions and is 10 from there on |
| `RiskMetrics.AccountMaturity` | azure_function_example.py:126 | maturity never exceeds 5; it equals age/365 up to 1825 days and is 5 from there on |
| `RiskMetrics.ComputeMetrics` | azure_function_example.py:116-127 | for every snapshot the metrics record has a non-negative deviation, a frequency score ≤ 10 and a maturity ≤ 5; std ≤ 0 gives deviation 0 and avg ≤ 0 gives ratio 1; the days parameter is carried through |
| `RiskMetrics.RatioComponent` | azure_function_example.py:132 | the ratio component is non-negative and zero unless the ratio exceeds 1; above 1 it is (ratio − 1) × 0.25, so positive |
| `RiskMetrics.RecencyComponent` | azure_function_example.py:134 | the recency component never exceeds 0.15; it is non-negative exactly when the days are non-negative; up to 30 days it is days / 30 × 0.15, and from 30 days on it is 0.15 |
| `RiskMetrics.Components` | azure_function_example.py:130-136 | five terms in the order of lines 131-135; the ratio term is positive exactly when the ratio exceeds 1, the recency term is at its 0.15 cap exactly from 30 days on, and every term is non-negative for metrics within their ranges and non-negative days (`RawScoreExpanded` gives their sum) |
| `RiskMetrics.Sum` | azure_function_example.py:138 | the sum of non-negative terms is non-negative and bounds each of its terms |
| `RiskMetrics.RawScoreExpanded` | azure_function_example.py:130-138 | the raw score is 100 times the sum of the five weighted components in the source's order |
| `RiskMetrics.ClampScore` | azure_function_example.py:139 | the clamped score lies in [0, 100]; it equals its input when the input is already in range, and is 0 below and 100 above |
| `RiskMetrics.Tier` | azure_function_example.py:142-150 | tiering is total and exclusive: below 30 is BAJO, [30, 70) is MEDIO, 70 and above is ALTO, so boundary 30 is MEDIO and boundary 70 is ALTO |
| `RiskMetrics.Recommendations` | azure_function_example.py:142-150 | each tier gets two distinct recommendations |
| `RiskMetrics.RecommendationsIdentifyTier` | azure_function_example.py:142-150 | the three tiers' recommendation pairs all differ, so the pair names the tier |
| `RiskMetrics.CalculateRiskMetrics` | azure_function_example.py:112-157 | the assessment's score lies in [0, 100] and equals the raw score whenever that is in range (0 below, 100 above); its level is BAJO/MEDIO/ALTO exactly by the 30/70 thresholds on that score; its recommendations are the fixed pair of its level; its metrics are those of the transaction and snapshot |
| `RiskMetrics.TierMonotone` | azure_function_example.py:142-150 | a higher score never yields a lower tier |
| `RiskMetrics.RawScoreNonNegative` | azure_function_example.py:130-139 | when the last transaction is not in the future, the raw score is non-negative, so the lower clamp only acts for future dates |
| `RiskMetrics.SaturatesAtLowFrequency` | azure_function_example.py:124-150 | with at most 150 transactions in 30 days and a past last transaction, the score is 100 and the level ALTO, whatever the amount (the frequency component alone is worth up to 200 points) |
| `RiskMetrics.BajoNeedsHighFrequency` | azure_function_example.py:124-143 | with a past last transaction, a BAJO rating implies more than 255 transactions in 30 days |
| `RiskMetrics.TypicalTransactionScoresZero` | azure_function_example.py:121-143 | a transaction equal to the average, on an account of five years or more with at least 300 transactions in 30 days and a transaction today, scores 0 and is BAJO |
| `RiskMetrics.DeviationMonotone` | azure_function_example.py:122 | for amounts at or above the average, the deviation never decreases as the amount grows (it stays 0 when the standard deviation is not positive) |
| `RiskMetrics.RatioMonotone` | azure_function_example.py:123 | the ratio never decreases as the amount grows (it stays 1 when the average is not positive) |
| `RiskMetrics.ScoreMonotoneInAmount` | azure_function_example.py:121-150 | for amounts at or above the account's average, a larger amount never lowers the score or the tier |
| `RiskProfile.VolumeTierOf` | azure_function_example.py:217-225 | ALTO_VOLUMEN exactly when avg > 1000 and count > 50; BAJO_VOLUMEN exactly when avg < 200 and count < 10 (the two conditions never overlap, so the priority order never decides); VOLUMEN_MEDIO otherwise |
| `RiskProfile.AgeTierOf` | azure_function_example.py:228-233 | the _NUEVA adjustment applies exactly when age < 90 and _ESTABLECIDA exactly when age > 365, never both; neither applies for ages 90 to 365 |
| `RiskProfile.ProfileName` | azure_function_example.py:217-233 | the profile name is the volume name followed by the age suffix, and is the bare volume name exactly when no age rule applies |
| `RiskProfile.VolumeNameHasNoAgeSuffix` | azure_function_example.py:218-224 | no volume name ends with an age suffix |
| `RiskProfile.ProfileNameSuffix` | azure_function_example.py:227-233 | a profile name ends with _NUEVA exactly when the new-account adjustment applied, and with _ESTABLECIDA exactly when the established-account one did |
| `RiskProfile.ProfileNamePrefix` | azure_function_example.py:217-233 | a profile name starts with a volume name exactly when that volume tier was chosen |
| `RiskProfile.ParseProfileNameRoundTrip` | azure_function_example.py:217-236 | reading a profile name back yields exactly the volume and age tiers it was built from |
| `RiskProfile.ProfileNameInjective` | azure_function_example.py:217-236 | different tier pairs never produce the same profile name |
| `RiskProfile.StabilityScore` | azure_function_example.py:238 | the stability score never exceeds 100; it is age × 100 / 365 up to one year and 100 from one year on; it is non-negative for non-negative ages |
| `RiskProfile.RiskFactorInWholeCents` | azure_function_example.py:217-237 | every risk factor lies in [0.2, 1.0] and is a whole number of hundredths, so rounding to two decimals does not change it |
| `RiskProfile.CalculateAccountRiskProfile` | azure_function_example.py:208-239 | the profile name starts with ALTO_VOLUMEN / BAJO_VOLUMEN exactly under those tiers' conditions and ends with _NUEVA / _ESTABLECIDA exactly when age < 90 / age > 365 (so never both suffixes); the risk factor lies in [0.2, 1.0]; the stability score is the capped age percentage |
| `RiskProfile.ProfileTypeReadsBack` | azure_function_example.py:217-236 | the profile name of any account reads back as exactly that account's volume and age tiers |
| `RiskProfile.RiskFactorTable` | azure_function_example.py:217-237 | the risk factor for each of the nine combinations of volume and age condition: 1.0, 0.7, 0.8 for high volume; 0.5, 0.2, 0.3 for low volume; 0.7, 0.4, 0.5 otherwise |
| `RiskProfile.NewHighVolumeExample` | azure_function_example.py:217-237 | avg 1500, 60 transactions, 20 days old gives ALTO_VOLUMEN_NUEVA with risk factor 1.0 |
| `Anomalies.DetectAnomalyIndicators` | azure_function_example.py:253-268 | the tag list is never empty; it is exactly [COMPORTAMIENTO_NORMAL] iff no rule holds; otherwise it holds exactly the tags of the rules that hold, each once, in the order TRANSACCION_ATIPICA_ALTA, FRECUENCIA_ALTA, CUENTA_NUEVA |
| `Anomalies.AnomalyIndicatorsDetermined` | azure_function_example.py:257-268 | any list with exactly the firing rules' tags, each once and in rule order, is the detector's result |
| `Anomalies.AnomalyTagsOnce` | azure_function_example.py:257-268 | no tag occurs twice in the detector's result |
| `Anomalies.RulesIndependent` | azure_function_example.py:259-266 | each tag's presence depends only on the fields its own rule reads |
| `Json.Truthy` | azure_function_example.py:27 | a body is falsy exactly when it is null, false, 0, the empty string, the empty list or the empty dict |
| `Json.Contains` | azure_function_example.py:36 | `field in body` tests a dict's keys, a list's elements for that string, and a string for an occurrence at some position |
| `Text.SubstringOccurs` | azure_function_example.py:36 | the recursive substring test holds exactly when the needle occurs at some position of the text |
| `Json.FloatOf` | azure_function_example.py:50 | `float` keeps a number as it is, turns true and false into 1 and 0, hands a string to the decimal parser, and fails on null, lists and dicts |
| `TransactionRequest.RequiredFieldsRanked` | azure_function_example.py:35 | the required fields are distinct, each at its own position |
| `TransactionRequest.MissingAmong` | azure_function_example.py:36 | the comprehension yields exactly the listed fields the body does not contain, each once, in the list's order |
| `TransactionRequest.MissingFields` | azure_function_example.py:35-36 | the missing-field list holds exactly the required fields absent from the body, each once, in `required_fields` order |
| `TransactionRequest.MissingFieldsOnce` | azure_function_example.py:35-36 | no field occurs twice in the missing-field list |
| `TransactionRequest.MissingFieldsDetermined` | azure_function_example.py:35-36 | any list with exactly the absent required fields, each once and in `required_fields` order, is the one reported |
| `TransactionRequest.ExtractTransaction` | azure_function_example.py:46-55 | a body that passed the field check yields a transaction exactly when it is a dict whose amount `float` can convert; tenant, client, account number and causal code are the body's values and the amount is `float` of the body's; currency, channel and timestamp are the body's values when present and default to USD, WEB and the request time when absent |
| `TransactionRequest.ProcessTransaction` | azure_function_example.py:25-61 | a falsy body gives the no-data 400 before any field check; otherwise the fields 400 is returned exactly when a required field is missing, and carries exactly the missing fields, each once, in order; the response is a 400 exactly in those two cases; scoring is reached exactly when the body is a dict holding every required field with a convertible amount, and then the response carries the body's account number and the assessment of that amount |
| `TransactionRequest.OnlyTenantIdExample` | azure_function_example.py:35-43 | a body holding only tenant_id is rejected listing client_id, account_number, transaction_amount and causal_code in that order |
| `TransactionRequest.QuotedList` | azure_function_example.py:40 | Python's rendering of a list is bracketed, is `[]` exactly for the empty list, and contains every item in quotes; between the brackets is the rendering that `QuotedItemsSingle` and `QuotedItemsAppend` pin |
| `TransactionRequest.QuotedItems` | azure_function_example.py:40 | the rendered items are empty exactly for no items; otherwise they open with a quote followed by the first item's text and close with a quote |
| `TransactionRequest.QuotedItemsNamesEach` | azure_function_example.py:40 | every item, whatever its position, appears in quotes in the rendered items |
| `TransactionRequest.QuotedItemsSingle` | azure_function_example.py:40 | one item renders as that item in single quotes and nothing else |
| `TransactionRequest.QuotedItemsAppend` | azure_function_example.py:40 | the rendering of a concatenation is the two renderings joined by ", "; with the single-item case this fixes the rendering of every list: each item quoted, in order, comma-separated, nothing else |
| `TransactionRequest.ValidationMessage` | azure_function_example.py:27-43 | the falsy-body 400 carries "No se proporcionaron datos"; the missing-fields 400 carries "Campos faltantes: " followed by a bracketed list, whose first character is a quote when a field is missing, and which contains every missing field in quotes |
| `TransactionRequest.MissingMessageText` | azure_function_example.py:40 | the missing-fields text is the prefix followed by the bracketed item rendering, for any number of fields |
| `TransactionRequest.MissingMessageAppend` | azure_function_example.py:40 | for missing fields `a + b` the text renders `a`, then ", ", then `b`, inside the brackets, so the fields appear in the reported order and no other name appears |
| `TransactionRequest.FourFieldsMessage` | azure_function_example.py:40 | for four missing fields the message is the prefix then `['a', 'b', 'c', 'd']`: each field quoted, separated by comma and space, in the reported order |
| `TransactionRequest.OnlyTenantIdMessage` | azure_function_example.py:25-43 | a body holding only tenant_id gets a 400 whose message is `Campos faltantes: ['client_id', 'account_number', 'transaction_amount', 'causal_code']` |

## Left out

- Hosting: route and auth-level registration, `HttpRequest`/`HttpResponse` objects, MIME types, JSON serialisation and logging are infrastructure. A response is modelled as its status and payload values. The 500 message text is not modelled, because it embeds Python's exception text.
- `get_historical_data` and `analyze_behavioral_patterns` draw random values. The snapshot is an input of the model, and the behavioural output is not modelled.
- `get_account_metrics` (the account endpoint's handler) and `health_check` are not modelled. They are routing around the modelled functions, or a constant payload with an environment-variable read.
- Clock and date handling is not modelled. This covers `datetime.now()`, parsing `last_transaction_date` after stripping a trailing UTC designator, the `TXN_` identifier and the response timestamps. The whole days since the last transaction are a parameter instead.
- Parsing the request body as JSON is not modelled; only its outcome is an input. Python's decimal-literal parsing inside `float(...)` is a parameter as well.
- Floating point is not modelled: arithmetic is on exact reals, so non-finite values and IEEE rounding are absent.
- `round(risk_score, 2)` and `round(risk_factor, 2)` are not modelled. `RiskProfile.RiskFactorInWholeCents` shows the second is exact on reals. The first is applied after tiering, so a reported score may show a rounded value on the other side of a tier boundary.
- `RiskMetrics.CalculateRiskMetrics`: the score it states is the unrounded one.
- `TransactionRequest.QuotedItems`: renders each item in single quotes, as Python's `repr` does for text without quotes or backslashes. The required field names are all such text, so the missing-fields message is rendered exactly.

=== FILE: anomalies.dfy ===
/** The anomaly indicators of the account-metrics endpoint: three independent
    rules, each adding its tag in a fixed order, with a single "normal" tag
    when none fires. */
module Anomalies {
  import opened History
  import opened Ranked

  const AtipicaAlta: string := "TRANSACCION_ATIPICA_ALTA"
  const FrecuenciaAlta: string := "FRECUENCIA_ALTA"
  const CuentaNueva: string := "CUENTA_NUEVA"
  const ComportamientoNormal: string := "COMPORTAMIENTO_NORMAL"

  /** The largest amount exceeds five times the average. */
  predicate AtypicalHigh(s: Snapshot) {
    s.maxAmount > s.avgAmount * 5.0
  }

  /** More than 80 transactions in the last 30 days. */
  predicate HighFrequency(s: Snapshot) {
    s.count30d > 80
  }

  /** The account is less than 30 days old. */
  predicate NewAccount(s: Snapshot) {
    s.ageDays < 30
  }

  predicate AnyRuleFires(s: Snapshot) {
    AtypicalHigh(s) || HighFrequency(s) || NewAccount(s)
  }

  /** Position of a tag in the order the rules are evaluated. */
  function TagRank(tag: string): int {
    if tag == AtipicaAlta then 0
    else if tag == FrecuenciaAlta then 1
    else if tag == CuentaNueva then 2
    else 3
  }

  /** The tag of a rule that holds on `s`. */
  ghost predicate FiredTag(s: Snapshot, tag: string) {
    || (tag == AtipicaAlta && AtypicalHigh(s))
    || (tag == FrecuenciaAlta && HighFrequency(s))
    || (tag == CuentaNueva && NewAccount(s))
  }

  function TagIf(cond: bool, tag: string): seq<string> {
    if cond then [tag] else []
  }

  /** The anomaly tags of an account snapshot. */
  function DetectAnomalyIndicators(s: Snapshot): (tags: seq<string>)
    ensures |tags| >= 1
    ensures tags == [ComportamientoNormal] <==> !AnyRuleFires(s)
    ensures AnyRuleFires(s) ==> forall t :: t in tags <==> FiredTag(s, t)
    ensures StrictlyRanked(tags, TagRank)
  {
    var indicators := TagIf(AtypicalHigh(s), AtipicaAlta)
                      + TagIf(HighFrequency(s), FrecuenciaAlta)
                      + TagIf(NewAccount(s), CuentaNueva);
    assert ComportamientoNormal !in indicators by {
      assert |ComportamientoNormal| !in {|AtipicaAlta|, |FrecuenciaAlta|, |CuentaNueva|};
    }
    if indicators == [] then [ComportamientoNormal] else indicators
  }

  /** The contract of `DetectAnomalyIndicators` is a complete specification:
      a list that holds exactly the tags of the rules that fire, each once
      and in rule order, is the detector's result. */
  lemma AnomalyIndicatorsDetermined(s: Snapshot, tags: seq<string>)
    requires AnyRuleFires(s)
    requires forall t :: t in tags <==> FiredTag(s, t)
    requires StrictlyRanked(tags, TagRank)
    ensures tags == DetectAnomalyIndicators(s)
  {
    RankedListUnique(tags, DetectAnomalyIndicators(s), TagRank);
  }

  /** No tag is reported twice. */
  lemma AnomalyTagsOnce(s: Snapshot, t: string)
    ensures multiset(DetectAnomalyIndicators(s))[t] <= 1
  {
    RankedOccursOnce(DetectAnomalyIndicators(s), TagRank, t);
  }

  /** Each rule's tag depends only on the fields that rule reads. */
  lemma RulesIndependent(s1: Snapshot, s2: Snapshot)
    ensures s1.maxAmount == s2.maxAmount && s1.avgAmount == s2.avgAmount ==>
              (AtipicaAlta in DetectAnomalyIndicators(s1) <==> AtipicaAlta in DetectAnomalyIndicators(s2))
    ensures s1.count30d == s2.count30d ==>
              (FrecuenciaAlta in DetectAnomalyIndicators(s1) <==> FrecuenciaAlta in DetectAnomalyIndicators(s2))
    ensures s1.ageDays == s2.ageDays ==>
              (CuentaNueva in DetectAnomalyIndicators(s1) <==> CuentaNueva in DetectAnomalyIndicators(s2))
  {
  }

}

=== FILE: history.dfy ===
/** The historical snapshot of an account, as produced by the historical-data
    provider (a stand-in generator in the source, passed in here). */
module History {

  datatype Snapshot = Snapshot(
    avgAmount: real,               // avg_transaction_amount
    stdAmount: real,               // std_transaction_amount
    count30d: int,                 // transaction_count_30d
    avgDailyTransactions: real,    // avg_daily_transactions
    maxAmount: real,               // max_transaction_amount
    minAmount: real,               // min_transaction_amount
    ageDays: int,                  // account_age_days
    lastTransactionDate: string,   // last_transaction_date, ISO-8601 text
    commonChannels: seq<string>,   // common_channels
    commonCausals: seq<string>     // common_causals
  )

}

=== FILE: json.dfy ===
/** A parsed JSON request body and the two Python operations the request
    gate applies to it: truth testing (`not body`) and membership
    (`field in body`), plus the `float(...)` conversion of the amount. */
module Json {
  import opened Wrappers
  import opened Text

  /** A JSON value as `json.loads` returns it: null, booleans, numbers,
      strings, lists and dicts (objects keyed by string). */
  datatype Json =
    | JNull
    | JBool(b: bool)
    | JNumber(n: real)
    | JString(s: string)
    | JArray(items: seq<Json>)
    | JObject(fields: map<string, Json>)

  /** Python truthiness: null, false, zero and empty strings, lists and
      dicts are false. */
  function Truthy(j: Json): (truthy: bool)
    ensures !truthy <==>
              || j == JNull || j == JBool(false) || j == JNumber(0.0)
              || j == JString("") || j == JArray([]) || j == JObject(map[])
  {
    match j
    case JNull => false
    case JBool(b) => b
    case JNumber(n) => n != 0.0
    case JString(s) => |s| > 0
    case JArray(items) => |items| > 0
    case JObject(fields) => |fields| > 0
  }

  /** `key in j` is defined for dicts, lists and strings; on a boolean or a
      number Python raises TypeError. */
  predicate SupportsIn(j: Json) {
    j.JObject? || j.JArray? || j.JString?
  }

  /** Python's `key in j`: a dict tests its keys, a list its elements, a
      string its substrings. */
  function Contains(j: Json, key: string): (found: bool)
    requires SupportsIn(j)
    ensures j.JObject? ==> (found <==> key in j.fields)
    ensures j.JArray? ==> (found <==> exists i :: 0 <= i < |j.items| && j.items[i] == JString(key))
    ensures j.JString? ==> (found <==> exists i :: OccursAt(key, j.s, i))
  {
    if j.JObject? then key in j.fields
    else if j.JArray? then JString(key) in j.items
    else
      SubstringOccurs(key, j.s);
      IsSubstring(key, j.s)
  }

  /** Python's `float(j)`. A number converts to itself and a boolean to 1 or
      0; a string is parsed by `parseDecimal`, which stands for Python's
      decimal-literal parser; null, lists and dicts raise TypeError (None). */
  function FloatOf(j: Json, parseDecimal: string -> Option<real>): (r: Option<real>)
    ensures j.JNumber? ==> r == Some(j.n)
    ensures j.JBool? ==> r == Some(if j.b then 1.0 else 0.0)
    ensures j.JString? ==> r == parseDecimal(j.s)
    ensures j.JNull? || j.JArray? || j.JObject? ==> r == None
  {
    match j
    case JNumber(n) => Some(n)
    case JBool(b) => Some(if b then 1.0 else 0.0)
    case JString(s) => parseDecimal(s)
    case _ => None
  }

}

=== FILE: profile.dfy ===
/** The account risk profile of the account-metrics endpoint: a volume tier
    chosen by priority, an optional age suffix with its risk-factor
    adjustment, and a capped stability score. */
module RiskProfile {
  import opened Wrappers
  import opened History

  datatype VolumeTier = AltoVolumen | BajoVolumen | VolumenMedio

  datatype AgeTier = Nueva | Establecida | SinAjuste

  datatype AccountProfile = AccountProfile(
    profileType: string,
    riskFactor: real,
    stabilityScore: real
  )

  const NuevaSuffix: string := "_NUEVA"
  const EstablecidaSuffix: string := "_ESTABLECIDA"

  predicate StartsWith(s: string, prefix: string) {
    |prefix| <= |s| && s[..|prefix|] == prefix
  }

  predicate EndsWith(s: string, suffix: string) {
    |suffix| <= |s| && s[|s| - |suffix|..] == suffix
  }

  /** The volume tier. The high-volume test is checked first, but it never
      competes with the low-volume test: no average is both above 1000 and
      below 200. */
  function VolumeTierOf(avgAmount: real, count30d: int): (v: VolumeTier)
    ensures v == AltoVolumen <==> avgAmount > 1000.0 && count30d > 50
    ensures v == BajoVolumen <==> avgAmount < 200.0 && count30d < 10
  {
    if avgAmount > 1000.0 && count30d > 50 then AltoVolumen
    else if avgAmount < 200.0 && count30d < 10 then BajoVolumen
    else VolumenMedio
  }

  /** The age tier: at most one adjustment applies. */
  function AgeTierOf(ageDays: int): (a: AgeTier)
    ensures a == Nueva <==> ageDays < 90
    ensures a == Establecida <==> ageDays > 365
    ensures a == SinAjuste <==> 90 <= ageDays <= 365
  {
    if ageDays < 90 then Nueva
    else if ageDays > 365 then Establecida
    else SinAjuste
  }

  function VolumeName(v: VolumeTier): string {
    match v
    case AltoVolumen => "ALTO_VOLUMEN"
    case BajoVolumen => "BAJO_VOLUMEN"
    case VolumenMedio => "VOLUMEN_MEDIO"
  }

  function AgeSuffix(a: AgeTier): string {
    match a
    case Nueva => NuevaSuffix
    case Establecida => EstablecidaSuffix
    case SinAjuste => ""
  }

  function BaseRiskFactor(v: VolumeTier): real {
    match v
    case AltoVolumen => 0.8
    case BajoVolumen => 0.3
    case VolumenMedio => 0.5
  }

  function AgeAdjustment(a: AgeTier): real {
    match a
    case Nueva => 0.2
    case Establecida => -0.1
    case SinAjuste => 0.0
  }

  /** The profile name: the volume name followed by the age suffix, if any. */
  function ProfileName(v: VolumeTier, a: AgeTier): (name: string)
    ensures |name| == |VolumeName(v)| + |AgeSuffix(a)|
    ensures name[..|VolumeName(v)|] == VolumeName(v)
    ensures name[|VolumeName(v)|..] == AgeSuffix(a)
    ensures a == SinAjuste <==> name == VolumeName(v)
  {
    VolumeName(v) + AgeSuffix(a)
  }

  function ParseVolumeName(s: string): Option<VolumeTier> {
    if s == "ALTO_VOLUMEN" then Some(AltoVolumen)
    else if s == "BAJO_VOLUMEN" then Some(BajoVolumen)
    else if s == "VOLUMEN_MEDIO" then Some(VolumenMedio)
    else None
  }

  /** Reads the two tiers back from a profile name: strips a known age
      suffix, then reads the remaining volume name. */
  function ParseProfileName(s: string): Option<(VolumeTier, AgeTier)> {
    var (base, age) :=
      if EndsWith(s, NuevaSuffix) then (s[..|s| - |NuevaSuffix|], Nueva)
      else if EndsWith(s, EstablecidaSuffix) then (s[..|s| - |EstablecidaSuffix|], Establecida)
      else (s, SinAjuste);
    match ParseVolumeName(base)
    case Some(v) => Some((v, age))
    case None => None
  }

  /** A string that differs from `suffix` at position `k` of its tail does
      not end with `suffix`. */
  lemma DiffersFromSuffix(s: string, suffix: string, k: nat)
    requires k < |suffix| <= |s|
    requires s[|s| - |suffix| + k] != suffix[k]
    ensures !EndsWith(s, suffix)
  {
  }

  /** Appending a suffix keeps the original as a prefix. */
  lemma EndsWithAppended(s: string, suffix: string)
    ensures EndsWith(s + suffix, suffix)
    ensures (s + suffix)[..|s|] == s
  {
  }

  /** No volume name carries an age suffix. */
  lemma VolumeNameHasNoAgeSuffix(v: VolumeTier)
    ensures !EndsWith(VolumeName(v), NuevaSuffix)
    ensures !EndsWith(VolumeName(v), EstablecidaSuffix)
  {
  }

  /** A profile name ends with an age suffix exactly when that age tier
      applies. */
  lemma ProfileNameSuffix(v: VolumeTier, a: AgeTier)
    ensures EndsWith(ProfileName(v, a), NuevaSuffix) <==> a == Nueva
    ensures EndsWith(ProfileName(v, a), EstablecidaSuffix) <==> a == Establecida
  {
    var s := ProfileName(v, a);
    assert 12 <= |VolumeName(v)| <= 13;
    match a
    case Nueva =>
      EndsWithAppended(VolumeName(v), NuevaSuffix);
      assert s[|s| - 6] == '_' && EstablecidaSuffix[6] == 'L';
      DiffersFromSuffix(s, EstablecidaSuffix, 6);
    case Establecida =>
      EndsWithAppended(VolumeName(v), EstablecidaSuffix);
      assert s[|s| - 6] == 'L' && NuevaSuffix[0] == '_';
      DiffersFromSuffix(s, NuevaSuffix, 0);
    case SinAjuste =>
      assert s == VolumeName(v);
      VolumeNameHasNoAgeSuffix(v);
  }

  /** A profile name starts with a volume name exactly when that volume
      tier applies. */
  lemma ProfileNamePrefix(v: VolumeTier, a: AgeTier, w: VolumeTier)
    ensures StartsWith(ProfileName(v, a), VolumeName(w)) <==> v == w
  {
    var s := ProfileName(v, a);
    assert s[..|VolumeName(v)|] == VolumeName(v);
    if v != w {
      assert s[0] == VolumeName(v)[0];
    }
  }

  /** The profile name determines both tiers. */
  lemma ParseProfileNameRoundTrip(v: VolumeTier, a: AgeTier)
    ensures ParseProfileName(ProfileName(v, a)) == Some((v, a))
  {
    var s := ProfileName(v, a);
    ProfileNameSuffix(v, a);
    assert ParseVolumeName(VolumeName(v)) == Some(v);
    match a
    case Nueva =>
      EndsWithAppended(VolumeName(v), NuevaSuffix);
      assert s[..|s| - |NuevaSuffix|] == VolumeName(v);
    case Establecida =>
      EndsWithAppended(VolumeName(v), EstablecidaSuffix);
      assert s[..|s| - |EstablecidaSuffix|] == VolumeName(v);
    case SinAjuste =>
      assert s == VolumeName(v);
  }

  /** Different tier pairs never share a profile name. */
  lemma ProfileNameInjective(v1: VolumeTier, a1: AgeTier, v2: VolumeTier, a2: AgeTier)
    requires ProfileName(v1, a1) == ProfileName(v2, a2)
    ensures v1 == v2 && a1 == a2
  {
    ParseProfileNameRoundTrip(v1, a1);
    ParseProfileNameRoundTrip(v2, a2);
  }

  /** Account age as a percentage of one year, capped at 100. */
  function StabilityScore(ageDays: int): (score: real)
    ensures score <= 100.0
    ensures ageDays <= 365 ==> score * 365.0 == ageDays as real * 100.0
    ensures ageDays >= 365 ==> score == 100.0
    ensures ageDays >= 0 ==> score >= 0.0
  {
    var pct := ageDays as real / 365.0 * 100.0;
    if 100.0 < pct then 100.0 else pct
  }

  /** Every risk factor is a whole number of hundredths between 0.2 and 1.0,
      so rounding it to two decimals leaves it unchanged. */
  lemma RiskFactorInWholeCents(v: VolumeTier, a: AgeTier)
    ensures var rf := BaseRiskFactor(v) + AgeAdjustment(a);
            0.2 <= rf <= 1.0 && (rf * 100.0).Floor as real == rf * 100.0
  {
  }

  /** The risk profile of an account. */
  function CalculateAccountRiskProfile(s: Snapshot): (p: AccountProfile)
    ensures StartsWith(p.profileType, VolumeName(AltoVolumen)) <==> s.avgAmount > 1000.0 && s.count30d > 50
    ensures StartsWith(p.profileType, VolumeName(BajoVolumen)) <==> s.avgAmount < 200.0 && s.count30d < 10
    ensures EndsWith(p.profileType, NuevaSuffix) <==> s.ageDays < 90
    ensures EndsWith(p.profileType, EstablecidaSuffix) <==> s.ageDays > 365
    ensures 0.2 <= p.riskFactor <= 1.0
    ensures p.stabilityScore == StabilityScore(s.ageDays)
  {
    var v := VolumeTierOf(s.avgAmount, s.count30d);
    var a := AgeTierOf(s.ageDays);
    RiskFactorInWholeCents(v, a);
    ProfileNameSuffix(v, a);
    ProfileNamePrefix(v, a, AltoVolumen);
    ProfileNamePrefix(v, a, BajoVolumen);
    AccountProfile(ProfileName(v, a), BaseRiskFactor(v) + AgeAdjustment(a), StabilityScore(s.ageDays))
  }

  /** The profile name of an account reads back as its volume and age
      tiers. */
  lemma ProfileTypeReadsBack(s: Snapshot)
    ensures ParseProfileName(CalculateAccountRiskProfile(s).profileType) ==
            Some((VolumeTierOf(s.avgAmount, s.count30d), AgeTierOf(s.ageDays)))
  {
    ParseProfileNameRoundTrip(VolumeTierOf(s.avgAmount, s.count30d), AgeTierOf(s.ageDays));
  }

  /** The risk factor for each combination of volume and age conditions. */
  lemma RiskFactorTable(s: Snapshot)
    ensures var high, low := s.avgAmount > 1000.0 && s.count30d > 50, s.avgAmount < 200.0 && s.count30d < 10;
            var rf := CalculateAccountRiskProfile(s).riskFactor;
            && (high && s.ageDays < 90 ==> rf == 1.0)
            && (high && s.ageDays > 365 ==> rf == 0.7)
            && (high && 90 <= s.ageDays <= 365 ==> rf == 0.8)
            && (low && s.ageDays < 90 ==> rf == 0.5)
            && (low && s.ageDays > 365 ==> rf == 0.2)
            && (low && 90 <= s.ageDays <= 365 ==> rf == 0.3)
            && (!high && !low && s.ageDays < 90 ==> rf == 0.7)
            && (!high && !low && s.ageDays > 365 ==> rf == 0.4)
            && (!high && !low && 90 <= s.ageDays <= 365 ==> rf == 0.5)
  {
  }

  /** A high-volume account twenty days old: profile ALTO_VOLUMEN_NUEVA with
      risk factor 1.0. */
  lemma NewHighVolumeExample(s: Snapshot)
    requires s.avgAmount == 1500.0 && s.count30d == 60 && s.ageDays == 20
    ensures CalculateAccountRiskProfile(s).profileType == "ALTO_VOLUMEN_NUEVA"
    ensures CalculateAccountRiskProfile(s).riskFactor == 1.0
  {
  }

}

=== FILE: ranked.dfy ===
/** Lists whose elements appear in strictly increasing order of a rank.

    Both the missing-field report of the transaction endpoint and the anomaly
    tags of the account endpoint are such lists: each element occurs at most
    once, and elements keep the order of a fixed reference list. The lemma
    `RankedListUnique` says that such a list is determined by its elements
    alone, which turns a membership-and-order contract into a complete
    specification. */
module Ranked {

  /** Every earlier element has a strictly smaller rank than every later one. */
  ghost predicate StrictlyRanked<T>(s: seq<T>, rank: T -> int) {
    forall i, j :: 0 <= i < j < |s| ==> rank(s[i]) < rank(s[j])
  }

  /** The tail of a strictly ranked list is strictly ranked, and every
      element of it outranks the head. */
  lemma RankedTail<T>(s: seq<T>, rank: T -> int)
    requires StrictlyRanked(s, rank) && |s| > 0
    ensures StrictlyRanked(s[1..], rank)
    ensures forall x :: x in s[1..] ==> rank(s[0]) < rank(x)
  {
  }

  /** A strictly ranked list holds no element twice. */
  lemma {:induction false} RankedOccursOnce<T>(s: seq<T>, rank: T -> int, x: T)
    requires StrictlyRanked(s, rank)
    ensures multiset(s)[x] <= 1
    decreases |s|
  {
    if |s| > 0 {
      RankedTail(s, rank);
      RankedOccursOnce(s[1..], rank, x);
      assert s == [s[0]] + s[1..];
      if x == s[0] {
        assert x !in s[1..];
      }
    }
  }

  /** An element ranked below every element of a strictly ranked list can be
      put in front of it. */
  lemma RankedCons<T>(x: T, s: seq<T>, rank: T -> int)
    requires StrictlyRanked(s, rank)
    requires forall y :: y in s ==> rank(x) < rank(y)
    ensures StrictlyRanked([x] + s, rank)
  {
  }

  /** Lists with the same elements are empty together. */
  lemma SameElementsSameEmptiness<T>(a: seq<T>, b: seq<T>)
    requires forall x :: x in a <==> x in b
    ensures |a| == 0 <==> |b| == 0
  {
    if |a| > 0 {
      assert a[0] in a;
    }
    if |b| > 0 {
      assert b[0] in b;
    }
  }

  /** Two strictly ranked lists with the same elements are the same list. */
  lemma {:induction false} RankedListUnique<T>(a: seq<T>, b: seq<T>, rank: T -> int)
    requires StrictlyRanked(a, rank) && StrictlyRanked(b, rank)
    requires forall x :: x in a <==> x in b
    ensures a == b
    decreases |a|
  {
    SameElementsSameEmptiness(a, b);
    if |a| > 0 {
      assert a[0] in a;
      var j :| 0 <= j < |b| && b[j] == a[0];
      assert rank(b[0]) <= rank(b[j]);
      assert b[0] in b;
      var i :| 0 <= i < |a| && a[i] == b[0];
      assert rank(a[0]) <= rank(a[i]);
      assert a[0] == b[0];
      var a', b' := a[1..], b[1..];
      RankedTail(a, rank);
      RankedTail(b, rank);
      assert a == [a[0]] + a' && b == [b[0]] + b';
      forall x
        ensures x in a' <==> x in b'
      {
        if x in a' {
          assert x in a && rank(a[0]) < rank(x);
          assert x in [b[0]] + b';
        }
        if x in b' {
          assert x in b && rank(b[0]) < rank(x);
          assert x in [a[0]] + a';
        }
      }
      RankedListUnique(a', b', rank);
    }
  }

}

=== FILE: request.dfy ===
/** The transaction endpoint's request gate and its hand-off to scoring.

    The body arrives as the result of parsing the request as JSON (None when
    parsing raised). A falsy body is rejected with a 400 "no data" error
    before any field is checked; otherwise the required fields absent from
    the body are listed in their fixed order, and a non-empty list is
    rejected with a 400. Only a body that passes both gates is scored. Every
    exception the source raises on the way lands in its catch-all 500. */
module TransactionRequest {
  import opened Wrappers
  import opened Json
  import opened Text
  import opened Ranked
  import opened History
  import opened RiskMetrics

  const RequiredFields: seq<string> :=
    ["tenant_id", "client_id", "account_number", "transaction_amount", "causal_code"]

  /** Position of a field in `RequiredFields` (5 for any other name). */
  function FieldRank(field: string): int {
    if field == "tenant_id" then 0
    else if field == "client_id" then 1
    else if field == "account_number" then 2
    else if field == "transaction_amount" then 3
    else if field == "causal_code" then 4
    else 5
  }

  lemma RequiredFieldsRanked()
    ensures StrictlyRanked(RequiredFields, FieldRank)
    ensures forall i :: 0 <= i < |RequiredFields| ==> FieldRank(RequiredFields[i]) == i
  {
  }

  /** The fields of `fields` that `body` does not contain, in the order of
      `fields`. */
  function MissingAmong(fields: seq<string>, body: Json): (missing: seq<string>)
    requires SupportsIn(body)
    requires StrictlyRanked(fields, FieldRank)
    ensures forall f :: f in missing <==> f in fields && !Contains(body, f)
    ensures StrictlyRanked(missing, FieldRank)
  {
    if |fields| == 0 then []
    else
      var tail := fields[1..];
      RankedTail(fields, FieldRank);
      var rest := MissingAmong(tail, body);
      assert forall f :: f in fields <==> f == fields[0] || f in tail by {
        assert fields == [fields[0]] + tail;
      }
      if Contains(body, fields[0]) then rest
      else
        RankedCons(fields[0], rest, FieldRank);
        [fields[0]] + rest
  }

  /** The required fields absent from `body`, in `RequiredFields` order. */
  function MissingFields(body: Json): (missing: seq<string>)
    requires SupportsIn(body)
    ensures forall f :: f in missing <==> f in RequiredFields && !Contains(body, f)
    ensures StrictlyRanked(missing, FieldRank)
  {
    RequiredFieldsRanked();
    MissingAmong(RequiredFields, body)
  }

  /** The missing-field contract is a complete specification: a list holding
      exactly the absent required fields, each once and in `RequiredFields`
      order, is the one reported. */
  lemma MissingFieldsDetermined(body: Json, missing: seq<string>)
    requires SupportsIn(body)
    requires forall f :: f in missing <==> f in RequiredFields && !Contains(body, f)
    requires StrictlyRanked(missing, FieldRank)
    ensures missing == MissingFields(body)
  {
    RankedListUnique(missing, MissingFields(body), FieldRank);
  }

  /** No field is reported missing twice. */
  lemma MissingFieldsOnce(body: Json, f: string)
    requires SupportsIn(body)
    ensures multiset(MissingFields(body))[f] <= 1
  {
    RankedOccursOnce(MissingFields(body), FieldRank, f);
  }

  /** A validated transaction. Values other than the amount are kept as the
      JSON values the body holds; `timestamp` is None when the body has none
      and the request time is used instead. */
  datatype Transaction = Transaction(
    tenantId: Json,
    clientId: Json,
    accountNumber: Json,
    amount: real,
    causalCode: Json,
    currency: Json,
    channel: Json,
    timestamp: Option<Json>
  )

  /** `body.get(key, default)` on a dict. */
  function GetOr(fields: map<string, Json>, key: string, default: Json): Json {
    if key in fields then fields[key] else default
  }

  /** Reads the transaction out of a body that passed the field check.
      Indexing a list or a string body by field name raises TypeError, and
      so does an amount `float` cannot convert: both give None. */
  function ExtractTransaction(body: Json, parseDecimal: string -> Option<real>): (t: Option<Transaction>)
    requires SupportsIn(body) && MissingFields(body) == []
    ensures t.Some? <==>
              && body.JObject?
              && "transaction_amount" in body.fields
              && FloatOf(body.fields["transaction_amount"], parseDecimal).Some?
    ensures t.Some? ==>
              && "tenant_id" in body.fields && "client_id" in body.fields
              && "account_number" in body.fields && "transaction_amount" in body.fields
              && "causal_code" in body.fields
              && t.value.tenantId == body.fields["tenant_id"]
              && t.value.clientId == body.fields["client_id"]
              && t.value.accountNumber == body.fields["account_number"]
              && Some(t.value.amount) == FloatOf(body.fields["transaction_amount"], parseDecimal)
              && t.value.causalCode == body.fields["causal_code"]
              && ("currency" in body.fields ==> t.value.currency == body.fields["currency"])
              && ("currency" !in body.fields ==> t.value.currency == JString("USD"))
              && ("channel" in body.fields ==> t.value.channel == body.fields["channel"])
              && ("channel" !in body.fields ==> t.value.channel == JString("WEB"))
              && ("timestamp" in body.fields ==> t.value.timestamp == Some(body.fields["timestamp"]))
              && ("timestamp" !in body.fields <==> t.value.timestamp == None)
  {
    if !body.JObject? then None
    else
      var m := body.fields;
      assert forall k :: 0 <= k < |RequiredFields| ==> RequiredFields[k] in m by {
        forall k | 0 <= k < |RequiredFields| ensures RequiredFields[k] in m {
          assert RequiredFields[k] in RequiredFields;
        }
      }
      assert RequiredFields[0] in m && RequiredFields[1] in m && RequiredFields[2] in m;
      assert RequiredFields[3] in m && RequiredFields[4] in m;
      match FloatOf(m["transaction_amount"], parseDecimal)
      case None => None
      case Some(amount) =>
        Some(Transaction(
          m["tenant_id"], m["client_id"], m["account_number"], amount, m["causal_code"],
          GetOr(m, "currency", JString("USD")),
          GetOr(m, "channel", JString("WEB")),
          if "timestamp" in m then Some(m["timestamp"]) else None))
  }

  /** The endpoint's possible responses. */
  datatype Response =
    | NoData                                   // 400: empty or null body
    | MissingFieldsError(missing: seq<string>) // 400: required fields absent
    | InternalError                            // 500: an exception was raised
    | Scored(accountNumber: Json, assessment: Assessment)  // 200

  function StatusCode(r: Response): int {
    match r
    case NoData => 400
    case MissingFieldsError(_) => 400
    case InternalError => 500
    case Scored(_, _) => 200
  }

  /** Python's `str` of a list of plain identifiers: `['a', 'b']`. */
  function QuotedList(items: seq<string>): (text: string)
    ensures |text| >= 2 && text[0] == '[' && text[|text| - 1] == ']'
    ensures items == [] <==> text == "[]"
    ensures forall i :: 0 <= i < |items| ==> IsSubstring("'" + items[i] + "'", text)
  {
    var inner := QuotedItems(items);
    assert forall i :: 0 <= i < |items| ==> IsSubstring("'" + items[i] + "'", "[" + inner + "]") by {
      forall i | 0 <= i < |items|
        ensures IsSubstring("'" + items[i] + "'", "[" + inner + "]")
      {
        QuotedItemsNamesEach(items, i);
        SubstringBeforeSuffix("'" + items[i] + "'", inner, "]");
        SubstringAfterPrefix("'" + items[i] + "'", "[", inner + "]");
        assert "[" + (inner + "]") == "[" + inner + "]";
      }
    }
    "[" + inner + "]"
  }

  /** The items, each in single quotes, separated by `", "`. */
  function QuotedItems(items: seq<string>): (text: string)
    ensures items == [] <==> text == ""
    ensures items != [] ==> |text| >= |items[0]| + 2
    ensures items != [] ==> text[0] == '\'' && text[|text| - 1] == '\''
    ensures items != [] ==> text[1..1 + |items[0]|] == items[0]
  {
    if |items| == 0 then ""
    else if |items| == 1 then "'" + items[0] + "'"
    else "'" + items[0] + "', " + QuotedItems(items[1..])
  }

  /** Every item appears, in quotes, in the rendered items. */
  lemma {:induction false} QuotedItemsNamesEach(items: seq<string>, i: int)
    requires 0 <= i < |items|
    ensures IsSubstring("'" + items[i] + "'", QuotedItems(items))
    decreases |items|
  {
    var quoted := "'" + items[0] + "'";
    if i == 0 {
      if |items| == 1 {
        PrefixIsSubstring(quoted, "");
        assert quoted + "" == quoted;
      } else {
        var rest := ", " + QuotedItems(items[1..]);
        PrefixIsSubstring(quoted, rest);
        assert QuotedItems(items) == quoted + rest;
      }
    } else {
      QuotedItemsNamesEach(items[1..], i - 1);
      assert items[1..][i - 1] == items[i];
      SubstringAfterPrefix("'" + items[i] + "'", "'" + items[0] + "', ", QuotedItems(items[1..]));
    }
  }

  const NoDataMessage: string := "No se proporcionaron datos"
  const MissingFieldsPrefix: string := "Campos faltantes: "

  /** The text of the `error` member of a 400 response: a fixed sentence for
      a falsy body, and the fixed prefix followed by the Python rendering of
      the missing-field list otherwise. */
  function ValidationMessage(r: Response): (text: string)
    requires StatusCode(r) == 400
    ensures r.NoData? ==> text == NoDataMessage
    ensures r.MissingFieldsError? ==>
              && |text| >= |MissingFieldsPrefix| + 2
              && text[..|MissingFieldsPrefix|] == MissingFieldsPrefix
              && text[|MissingFieldsPrefix|] == '['
              && text[|text| - 1] == ']'
    ensures r.MissingFieldsError? && r.missing != [] ==> text[|MissingFieldsPrefix| + 1] == '\''
    ensures r.MissingFieldsError? ==> forall f :: f in r.missing ==> IsSubstring("'" + f + "'", text)
  {
    match r
    case NoData => NoDataMessage
    case MissingFieldsError(missing) =>
      var list := QuotedList(missing);
      var text := MissingFieldsPrefix + list;
      assert text[|MissingFieldsPrefix|..] == list;
      assert forall f :: f in missing ==> IsSubstring("'" + f + "'", text) by {
        forall f | f in missing
          ensures IsSubstring("'" + f + "'", text)
        {
          var i :| 0 <= i < |missing| && missing[i] == f;
          SubstringAfterPrefix("'" + f + "'", MissingFieldsPrefix, list);
        }
      }
      text
  }

  /** The body is present, truthy and holds every required field. */
  predicate PassesValidation(body: Json) {
    Truthy(body) && SupportsIn(body) && forall f :: f in RequiredFields ==> Contains(body, f)
  }

  /** The transaction endpoint. `body` is the parsed request body (None when
      parsing raised), `snapshot` the account's historical snapshot,
      `daysSinceLast` the whole days from its last transaction date to now,
      and `parseDecimal` the string-to-number conversion of `float`. */
  function ProcessTransaction(body: Option<Json>, snapshot: Snapshot, daysSinceLast: int,
                              parseDecimal: string -> Option<real>): (r: Response)
    ensures r.NoData? <==> body.Some? && !Truthy(body.value)
    ensures r.MissingFieldsError? <==>
              && body.Some? && Truthy(body.value) && SupportsIn(body.value)
              && exists f :: f in RequiredFields && !Contains(body.value, f)
    ensures r.MissingFieldsError? ==>
              && r.missing != []
              && (forall f :: f in r.missing <==> f in RequiredFields && !Contains(body.value, f))
              && StrictlyRanked(r.missing, FieldRank)
    ensures r.Scored? <==>
              && body.Some? && PassesValidation(body.value) && body.value.JObject?
              && "transaction_amount" in body.value.fields
              && FloatOf(body.value.fields["transaction_amount"], parseDecimal).Some?
    ensures r.Scored? ==>
              && body.Some? && body.value.JObject?
              && "account_number" in body.value.fields
              && "transaction_amount" in body.value.fields
              && r.accountNumber == body.value.fields["account_number"]
              && var amount := FloatOf(body.value.fields["transaction_amount"], parseDecimal).value;
                 r.assessment == CalculateRiskMetrics(amount, snapshot, daysSinceLast)
    ensures StatusCode(r) == 400 <==>
              body.Some? && (!Truthy(body.value) || (SupportsIn(body.value) && !PassesValidation(body.value)))
  {
    match body
    case None => InternalError
    case Some(j) =>
      if !Truthy(j) then NoData
      else if !SupportsIn(j) then InternalError
      else
        var missing := MissingFields(j);
        if missing != [] then
          assert missing[0] in missing;
          MissingFieldsError(missing)
        else
          assert forall f :: f in RequiredFields ==> Contains(j, f) by {
            forall f | f in RequiredFields ensures Contains(j, f) {
              assert f !in missing;
            }
          }
          match ExtractTransaction(j, parseDecimal)
          case None => InternalError
          case Some(t) => Scored(t.accountNumber, CalculateRiskMetrics(t.amount, snapshot, daysSinceLast))
  }

  /** A body holding only `tenant_id` is rejected, listing the four other
      required fields in order. */
  lemma OnlyTenantIdExample(snapshot: Snapshot, daysSinceLast: int, parseDecimal: string -> Option<real>)
    ensures var body := JObject(map["tenant_id" := JString("t1")]);
            ProcessTransaction(Some(body), snapshot, daysSinceLast, parseDecimal) ==
              MissingFieldsError(["client_id", "account_number", "transaction_amount", "causal_code"])
  {
    var body := JObject(map["tenant_id" := JString("t1")]);
    var expected := ["client_id", "account_number", "transaction_amount", "causal_code"];
    assert RequiredFields == ["tenant_id"] + expected;
    assert Contains(body, "tenant_id");
    assert forall f :: f in expected ==> !Contains(body, f);
    assert StrictlyRanked(expected, FieldRank) by {
      RequiredFieldsRanked();
      RankedTail(RequiredFields, FieldRank);
    }
    var r := ProcessTransaction(Some(body), snapshot, daysSinceLast, parseDecimal);
    assert "client_id" in RequiredFields && !Contains(body, "client_id");
    assert r.MissingFieldsError?;
    RankedListUnique(r.missing, expected, FieldRank);
  }

  /** The 400 body sent for that request names the four absent fields, in the
      order of the required-field list, in Python's list notation:
      `Campos faltantes: ['client_id', 'account_number', 'transaction_amount', 'causal_code']`. */
  lemma OnlyTenantIdMessage(snapshot: Snapshot, daysSinceLast: int, parseDecimal: string -> Option<real>)
    ensures var body := JObject(map["tenant_id" := JString("t1")]);
            var r := ProcessTransaction(Some(body), snapshot, daysSinceLast, parseDecimal);
            && StatusCode(r) == 400
            && ValidationMessage(r) ==
                 MissingFieldsPrefix + "[" + "'client_id', " + "'account_number', "
                 + "'transaction_amount', " + "'causal_code'" + "]"
  {
    OnlyTenantIdExample(snapshot, daysSinceLast, parseDecimal);
    FourFieldsMessage("client_id", "account_number", "transaction_amount", "causal_code");
    NonTenantFieldsQuoted();
  }

  /** The quoted pieces of the four non-tenant field names. */
  lemma NonTenantFieldsQuoted()
    ensures "'" + "client_id" + "', " == "'client_id', "
    ensures "'" + "account_number" + "', " == "'account_number', "
    ensures "'" + "transaction_amount" + "', " == "'transaction_amount', "
    ensures "'" + "causal_code" + "'" == "'causal_code'"
  {
  }

  /** The message for four missing fields lists them quoted, comma-separated,
      in the order given. */
  lemma FourFieldsMessage(a: string, b: string, c: string, d: string)
    ensures ValidationMessage(MissingFieldsError([a, b, c, d])) ==
              MissingFieldsPrefix + "[" + ("'" + a + "', ") + ("'" + b + "', ") + ("'" + c + "', ") + ("'" + d + "'") + "]"
  {
    var qa, qb, qc, qd := "'" + a + "', ", "'" + b + "', ", "'" + c + "', ", "'" + d + "'";
    FourItemsQuoted(a, b, c, d);
    MissingMessageText([a, b, c, d]);
    RegroupFour(MissingFieldsPrefix + "[", qa, qb, qc, qd);
  }

  /** Regroups a bracketed four-piece concatenation to the left. */
  lemma RegroupFour(opening: string, qa: string, qb: string, qc: string, qd: string)
    ensures opening + (qa + qb + qc + qd) + "]" == opening + qa + qb + qc + qd + "]"
  {
    assert opening + (qa + qb + qc + qd) == opening + (qa + qb + qc) + qd;
    assert opening + (qa + qb + qc) == opening + (qa + qb) + qc;
    assert opening + (qa + qb) == opening + qa + qb;
  }

  /** The missing-fields message is the prefix and the bracketed rendering. */
  lemma MissingMessageText(missing: seq<string>)
    ensures ValidationMessage(MissingFieldsError(missing)) == MissingFieldsPrefix + "[" + QuotedItems(missing) + "]"
  {
    var items := QuotedItems(missing);
    assert QuotedList(missing) == "[" + items + "]";
    assert MissingFieldsPrefix + ("[" + items + "]") == MissingFieldsPrefix + "[" + items + "]";
  }

  /** The rendering of four items, piece by piece. */
  lemma FourItemsQuoted(a: string, b: string, c: string, d: string)
    ensures QuotedItems([a, b, c, d]) == ("'" + a + "', ") + ("'" + b + "', ") + ("'" + c + "', ") + ("'" + d + "'")
  {
    var qa, qb, qc, qd := "'" + a + "', ", "'" + b + "', ", "'" + c + "', ", "'" + d + "'";
    QuotedItemsCons(a, [b, c, d]);
    assert [a] + [b, c, d] == [a, b, c, d];
    QuotedItemsCons(b, [c, d]);
    assert [b] + [c, d] == [b, c, d];
    QuotedItemsCons(c, [d]);
    assert [c] + [d] == [c, d];
    assert QuotedItems([a, b, c, d]) == qa + (qb + (qc + qd));
  }

  /** An item in front of a non-empty list is rendered in front of it. */
  lemma QuotedItemsCons(x: string, rest: seq<string>)
    requires rest != []
    ensures QuotedItems([x] + rest) == "'" + x + "', " + QuotedItems(rest)
  {
    assert ([x] + rest)[1..] == rest;
  }

  /** A single item is rendered in quotes and nothing else. */
  lemma QuotedItemsSingle(x: string)
    ensures QuotedItems([x]) == "'" + x + "'"
  {
  }

  /** Rendering a concatenation renders both parts, joined by `", "`.
      With `QuotedItemsSingle` and the empty case this fixes the rendering
      of a list of any length: each item in quotes, in order, separated by
      comma and space, and nothing else. */
  lemma {:induction false} QuotedItemsAppend(a: seq<string>, b: seq<string>)
    requires a != [] && b != []
    ensures QuotedItems(a + b) == QuotedItems(a) + ", " + QuotedItems(b)
    decreases |a|
  {
    assert (a + b)[1..] == a[1..] + b;
    if |a| == 1 {
      assert QuotedItems(a + b) == "'" + a[0] + "', " + QuotedItems(b);
    } else {
      QuotedItemsAppend(a[1..], b);
      assert QuotedItems(a + b) == "'" + a[0] + "', " + QuotedItems(a[1..] + b);
    }
  }

  /** The missing-fields message for `a + b` renders `a`, then `", "`, then
      `b`, inside the brackets after the prefix. */
  lemma MissingMessageAppend(a: seq<string>, b: seq<string>)
    requires a != [] && b != []
    ensures ValidationMessage(MissingFieldsError(a + b)) ==
              MissingFieldsPrefix + "[" + (QuotedItems(a) + ", " + QuotedItems(b)) + "]"
  {
    MissingMessageText(a + b);
    QuotedItemsAppend(a, b);
  }

}

=== FILE: risk.dfy ===
/** The risk-scoring formula of the transaction endpoint: five derived
    metrics, a weighted composite score clamped to [0, 100], and a three-tier
    risk level with fixed recommendations. All arithmetic is on exact reals;
    the source's floating point and its final two-decimal rounding are not
    modelled. */
module RiskMetrics {
  import opened History

  /** The five derived metrics, in the order the source computes them. */
  datatype Metrics = Metrics(
    amountDeviation: real,
    amountRatio: real,
    frequencyScore: real,
    timeSinceLast: int,   // whole days since the last transaction
    accountMaturity: real
  )

  datatype RiskLevel = Bajo | Medio | Alto

  datatype Assessment = Assessment(
    riskScore: real,
    level: RiskLevel,
    metrics: Metrics,
    recommendations: seq<string>
  )

  // Weights of the five score components.
  const DeviationWeight: real := 0.3
  const RatioWeight: real := 0.25
  const FrequencyWeight: real := 0.2
  const RecencyWeight: real := 0.15
  const MaturityWeight: real := 0.1

  // Tier boundaries: a score at a boundary belongs to the higher tier.
  const MediumThreshold: real := 30.0
  const HighThreshold: real := 70.0

  function Abs(x: real): real {
    if x < 0.0 then -x else x
  }

  function Min(a: real, b: real): (m: real)
    ensures m <= a && m <= b
    ensures m == a || m == b
  {
    if b < a then b else a
  }

  /** |amount - avg| / std, or 0 when the spread is not positive. */
  function AmountDeviation(amount: real, avg: real, std: real): (d: real)
    ensures d >= 0.0
    ensures std <= 0.0 ==> d == 0.0
    ensures std > 0.0 ==> d * std == Abs(amount - avg)
  {
    if std > 0.0 then Abs(amount - avg) / std else 0.0
  }

  /** amount / avg, or exactly 1 when the average is not positive. */
  function AmountRatio(amount: real, avg: real): (q: real)
    ensures avg <= 0.0 ==> q == 1.0
    ensures avg > 0.0 ==> q * avg == amount
    ensures avg > 0.0 ==> (q > 1.0 <==> amount > avg)
  {
    if avg > 0.0 then
      var q := amount / avg;
      assert q > 1.0 <==> amount > avg by {
        if q > 1.0 { assert (q - 1.0) * avg > 0.0; }
        if amount > avg { assert (q - 1.0) * avg > 0.0; }
      }
      q
    else 1.0
  }

  /** Transactions in the last 30 days per day, capped at 10. */
  function FrequencyScore(count30d: int): (f: real)
    ensures f <= 10.0
    ensures count30d <= 300 ==> f * 30.0 == count30d as real
    ensures count30d >= 300 ==> f == 10.0
  {
    Min(count30d as real / 30.0, 10.0)
  }

  /** Account age in years, capped at 5. */
  function AccountMaturity(ageDays: int): (m: real)
    ensures m <= 5.0
    ensures ageDays <= 1825 ==> m * 365.0 == ageDays as real
    ensures ageDays >= 1825 ==> m == 5.0
  {
    Min(ageDays as real / 365.0, 5.0)
  }

  /** The metrics of a transaction of `amount` against snapshot `s`, where
      `daysSinceLast` is the whole-day distance from the snapshot's last
      transaction date to now. */
  function ComputeMetrics(amount: real, s: Snapshot, daysSinceLast: int): (m: Metrics)
    ensures m.amountDeviation >= 0.0
    ensures s.stdAmount <= 0.0 ==> m.amountDeviation == 0.0
    ensures s.avgAmount <= 0.0 ==> m.amountRatio == 1.0
    ensures m.frequencyScore <= 10.0
    ensures m.accountMaturity <= 5.0
    ensures m.timeSinceLast == daysSinceLast
  {
    Metrics(
      AmountDeviation(amount, s.avgAmount, s.stdAmount),
      AmountRatio(amount, s.avgAmount),
      FrequencyScore(s.count30d),
      daysSinceLast,
      AccountMaturity(s.ageDays))
  }

  /** The ratio component: only an amount above the average contributes. */
  function RatioComponent(ratio: real): (c: real)
    ensures c >= 0.0
    ensures ratio <= 1.0 ==> c == 0.0
    ensures ratio > 1.0 ==> c > 0.0 && c * 4.0 == ratio - 1.0
  {
    if ratio > 1.0 then (ratio - 1.0) * RatioWeight else 0.0
  }

  /** The recency component: days since the last transaction, in months,
      capped at one month. */
  function RecencyComponent(days: int): (c: real)
    ensures c <= RecencyWeight
    ensures days >= 0 <==> c >= 0.0
    ensures days >= 30 ==> c == RecencyWeight
    ensures days <= 30 ==> c * 30.0 == days as real * RecencyWeight
  {
    Min(days as real / 30.0, 1.0) * RecencyWeight
  }

  /** The five weighted components, in the source's order. */
  function Components(m: Metrics): (c: seq<real>)
    ensures |c| == 5
    ensures c[1] > 0.0 <==> m.amountRatio > 1.0
    ensures c[3] == RecencyWeight <==> m.timeSinceLast >= 30
    ensures (m.amountDeviation >= 0.0 && m.frequencyScore <= 10.0 && m.accountMaturity <= 5.0
             && m.timeSinceLast >= 0) ==> forall i :: 0 <= i < |c| ==> c[i] >= 0.0
  {
    [ m.amountDeviation * DeviationWeight,
      RatioComponent(m.amountRatio),
      (10.0 - m.frequencyScore) * FrequencyWeight,
      RecencyComponent(m.timeSinceLast),
      (5.0 - m.accountMaturity) * MaturityWeight ]
  }

  /** Sum of a list of reals; a list of non-negative terms has a
      non-negative sum that bounds each term. */
  function Sum(xs: seq<real>): (t: real)
    ensures (forall i :: 0 <= i < |xs| ==> xs[i] >= 0.0) ==> t >= 0.0
    ensures (forall i :: 0 <= i < |xs| ==> xs[i] >= 0.0) ==>
              forall i :: 0 <= i < |xs| ==> xs[i] <= t
  {
    if |xs| == 0 then 0.0 else xs[0] + Sum(xs[1..])
  }

  /** The composite score before clamping: the components' sum scaled by 100. */
  function RawScore(m: Metrics): real {
    Sum(Components(m)) * 100.0
  }

  /** max(0, min(100, x)). */
  function ClampScore(x: real): (r: real)
    ensures 0.0 <= r <= 100.0
    ensures 0.0 <= x <= 100.0 ==> r == x
    ensures x < 0.0 ==> r == 0.0
    ensures x > 100.0 ==> r == 100.0
  {
    var upper := Min(100.0, x);
    if 0.0 < upper then upper else 0.0
  }

  /** The risk tier of a score. */
  function Tier(score: real): (level: RiskLevel)
    ensures level == Bajo <==> score < MediumThreshold
    ensures level == Medio <==> MediumThreshold <= score < HighThreshold
    ensures level == Alto <==> HighThreshold <= score
  {
    if score < MediumThreshold then Bajo
    else if score < HighThreshold then Medio
    else Alto
  }

  /** The fixed pair of recommendations of each tier. */
  function Recommendations(level: RiskLevel): (r: seq<string>)
    ensures |r| == 2 && r[0] != r[1]
  {
    match level
    case Bajo => ["Transacción normal", "Continuar monitoreo estándar"]
    case Medio => ["Revisar patrones", "Monitoreo adicional recomendado"]
    case Alto => ["Revisión manual requerida", "Posible transacción fraudulenta"]
  }

  /** Different tiers get different recommendations, so the pair names
      the tier. */
  lemma RecommendationsIdentifyTier(l1: RiskLevel, l2: RiskLevel)
    requires Recommendations(l1) == Recommendations(l2)
    ensures l1 == l2
  {
    assert Recommendations(l1)[0] == Recommendations(l2)[0];
  }

  /** The full assessment of a transaction of `amount` against snapshot `s`. */
  function CalculateRiskMetrics(amount: real, s: Snapshot, daysSinceLast: int): (a: Assessment)
    ensures a.metrics == ComputeMetrics(amount, s, daysSinceLast)
    ensures 0.0 <= a.riskScore <= 100.0
    ensures 0.0 <= RawScore(a.metrics) <= 100.0 ==> a.riskScore == RawScore(a.metrics)
    ensures RawScore(a.metrics) < 0.0 ==> a.riskScore == 0.0
    ensures RawScore(a.metrics) > 100.0 ==> a.riskScore == 100.0
    ensures a.level == Bajo <==> a.riskScore < MediumThreshold
    ensures a.level == Medio <==> MediumThreshold <= a.riskScore < HighThreshold
    ensures a.level == Alto <==> HighThreshold <= a.riskScore
    ensures a.recommendations == Recommendations(a.level)
  {
    var m := ComputeMetrics(amount, s, daysSinceLast);
    var score := ClampScore(RawScore(m));
    var level := Tier(score);
    Assessment(score, level, m, Recommendations(level))
  }

  /** The composite score written out as the sum of its five terms. */
  lemma RawScoreExpanded(m: Metrics)
    ensures RawScore(m) ==
      100.0 * (m.amountDeviation * DeviationWeight
               + RatioComponent(m.amountRatio)
               + (10.0 - m.frequencyScore) * FrequencyWeight
               + RecencyComponent(m.timeSinceLast)
               + (5.0 - m.accountMaturity) * MaturityWeight)
  {
    var c := Components(m);
    assert Sum(c[4..]) == c[4] by {
      assert c[4..][1..] == [];
    }
    assert Sum(c[3..]) == c[3] + Sum(c[4..]) by {
      assert c[3..][1..] == c[4..];
    }
    assert Sum(c[2..]) == c[2] + Sum(c[3..]) by {
      assert c[2..][1..] == c[3..];
    }
    assert Sum(c[1..]) == c[1] + Sum(c[2..]) by {
      assert c[1..][1..] == c[2..];
    }
  }

  /** Tiers ordered from lowest to highest risk. */
  function LevelRank(level: RiskLevel): nat {
    match level
    case Bajo => 0
    case Medio => 1
    case Alto => 2
  }

  /** A higher score never yields a lower tier. */
  lemma TierMonotone(s1: real, s2: real)
    requires s1 <= s2
    ensures LevelRank(Tier(s1)) <= LevelRank(Tier(s2))
  {
  }

  /** Every component except recency is non-negative for every snapshot, so
      the raw score can only fall below 0 (and be clamped up to 0) when the
      last transaction date lies in the future. */
  lemma RawScoreNonNegative(amount: real, s: Snapshot, daysSinceLast: int)
    requires daysSinceLast >= 0
    ensures RawScore(ComputeMetrics(amount, s, daysSinceLast)) >= 0.0
  {
  }

  /** The frequency component alone is worth up to 200 points: an account with
      at most 150 transactions in 30 days and a last transaction in the past
      always scores 100 and is rated high risk, whatever the amount. */
  lemma SaturatesAtLowFrequency(amount: real, s: Snapshot, daysSinceLast: int)
    requires s.count30d <= 150 && daysSinceLast >= 0
    ensures CalculateRiskMetrics(amount, s, daysSinceLast).riskScore == 100.0
    ensures CalculateRiskMetrics(amount, s, daysSinceLast).level == Alto
  {
    var m := ComputeMetrics(amount, s, daysSinceLast);
    var c := Components(m);
    assert m.frequencyScore <= 5.0;
    assert c[2] >= 1.0;
    assert forall i :: 0 <= i < |c| ==> c[i] >= 0.0;
    assert Sum(c) >= c[2];
  }

  /** With a last transaction in the past, a low-risk rating needs more than
      255 transactions in the last 30 days. */
  lemma BajoNeedsHighFrequency(amount: real, s: Snapshot, daysSinceLast: int)
    requires daysSinceLast >= 0
    requires CalculateRiskMetrics(amount, s, daysSinceLast).level == Bajo
    ensures s.count30d > 255
  {
    var m := ComputeMetrics(amount, s, daysSinceLast);
    var c := Components(m);
    assert forall i :: 0 <= i < |c| ==> c[i] >= 0.0;
    assert Sum(c) >= c[2];
    assert RawScore(m) < 30.0;
    assert m.frequencyScore > 8.5;
  }

  /** A transaction equal to the average, on an account at least five years
      old with at least 300 transactions in 30 days and a transaction today,
      scores 0. */
  lemma TypicalTransactionScoresZero(s: Snapshot)
    requires s.count30d >= 300 && s.ageDays >= 1825
    ensures CalculateRiskMetrics(s.avgAmount, s, 0).riskScore == 0.0
    ensures CalculateRiskMetrics(s.avgAmount, s, 0).level == Bajo
  {
  }

  /** Above the average, the deviation never decreases as the amount grows. */
  lemma DeviationMonotone(a1: real, a2: real, avg: real, std: real)
    requires avg <= a1 <= a2
    ensures AmountDeviation(a1, avg, std) <= AmountDeviation(a2, avg, std)
  {
  }

  /** The ratio never decreases as the amount grows. */
  lemma RatioMonotone(a1: real, a2: real, avg: real)
    requires a1 <= a2
    ensures AmountRatio(a1, avg) <= AmountRatio(a2, avg)
  {
  }

  /** For amounts at or above the account's average, a larger amount never
      lowers the score or the tier. */
  lemma ScoreMonotoneInAmount(a1: real, a2: real, s: Snapshot, daysSinceLast: int)
    requires s.avgAmount <= a1 <= a2
    ensures CalculateRiskMetrics(a1, s, daysSinceLast).riskScore <=
              CalculateRiskMetrics(a2, s, daysSinceLast).riskScore
    ensures LevelRank(CalculateRiskMetrics(a1, s, daysSinceLast).level) <=
              LevelRank(CalculateRiskMetrics(a2, s, daysSinceLast).level)
  {
    var m1 := ComputeMetrics(a1, s, daysSinceLast);
    var m2 := ComputeMetrics(a2, s, daysSinceLast);
    DeviationMonotone(a1, a2, s.avgAmount, s.stdAmount);
    RatioMonotone(a1, a2, s.avgAmount);
    RawScoreExpanded(m1);
    RawScoreExpanded(m2);
    assert RawScore(m1) <= RawScore(m2);
    TierMonotone(ClampScore(RawScore(m1)), ClampScore(RawScore(m2)));
  }

}

=== FILE: text.dfy ===
/** Occurrence of one text inside another, as Python's `in` on strings
    tests it, with the facts the error-message rendering needs. */
module Text {

  /** `needle` occurs in `hay` at position `i`. */
  predicate OccursAt(needle: string, hay: string, i: int) {
    0 <= i && i + |needle| <= |hay| && hay[i..i + |needle|] == needle
  }

  /** `needle` occurs in `hay` at some position. */
  predicate IsSubstring(needle: string, hay: string)
    decreases |hay|
  {
    || (|needle| <= |hay| && hay[..|needle|] == needle)
    || (|hay| > 0 && IsSubstring(needle, hay[1..]))
  }

  /** The recursive test agrees with the positional one: `needle` is a
      substring of `hay` exactly when it occurs at some position. */
  lemma {:induction false} SubstringOccurs(needle: string, hay: string)
    ensures IsSubstring(needle, hay) <==> exists i :: OccursAt(needle, hay, i)
    decreases |hay|
  {
    if |hay| == 0 {
      if IsSubstring(needle, hay) {
        assert OccursAt(needle, hay, 0);
      }
    } else {
      SubstringOccurs(needle, hay[1..]);
      if IsSubstring(needle, hay) {
        if |needle| <= |hay| && hay[..|needle|] == needle {
          assert OccursAt(needle, hay, 0);
        } else {
          var k :| OccursAt(needle, hay[1..], k);
          assert hay[1..][k..k + |needle|] == hay[k + 1..k + 1 + |needle|];
          assert OccursAt(needle, hay, k + 1);
        }
      }
      if exists i :: OccursAt(needle, hay, i) {
        var i :| OccursAt(needle, hay, i);
        if i > 0 {
          assert hay[1..][i - 1..i - 1 + |needle|] == hay[i..i + |needle|];
          assert OccursAt(needle, hay[1..], i - 1);
        }
      }
    }
  }

  /** A text occurs in itself followed by anything. */
  lemma PrefixIsSubstring(needle: string, rest: string)
    ensures IsSubstring(needle, needle + rest)
  {
    assert (needle + rest)[..|needle|] == needle;
  }

  /** Text put in front of a haystack keeps every occurrence in it. */
  lemma {:induction false} SubstringAfterPrefix(needle: string, pre: string, hay: string)
    requires IsSubstring(needle, hay)
    ensures IsSubstring(needle, pre + hay)
    decreases |pre|
  {
    if |pre| == 0 {
      assert pre + hay == hay;
    } else {
      assert (pre + hay)[1..] == pre[1..] + hay;
      SubstringAfterPrefix(needle, pre[1..], hay);
    }
  }

  /** Text put after a haystack keeps every occurrence in it. */
  lemma {:induction false} SubstringBeforeSuffix(needle: string, hay: string, post: string)
    requires IsSubstring(needle, hay)
    ensures IsSubstring(needle, hay + post)
    decreases |hay|
  {
    if |needle| <= |hay| && hay[..|needle|] == needle {
      assert (hay + post)[..|needle|] == hay[..|needle|];
    } else {
      assert (hay + post)[1..] == hay[1..] + post;
      SubstringBeforeSuffix(needle, hay[1..], post);
    }
  }

}

=== FILE: wrappers.dfy ===
/** The optional-value datatype used where the source either produces a value
    or raises. */
module Wrappers {

  datatype Option<+T> = None | Some(value: T)

}
